=== FILE: README.md ===
# just-record: decision rules of the screen + selfie recorder

This project models, in Dafny, the small sequential rules inside the just-record web
app that records a screen share with a camera "selfie" overlay:

- **MimeSelect** — the encoder-format fallback of `startRecording`: VP9/Opus, then
  VP8/Opus, then plain WebM, then the empty configuration. `MediaRecorder.isTypeSupported`
  is an uninterpreted predicate (a parameter).
- **OverlayGeometry** — the mixer inputs built by `afterScreenCaptured`. The screen is
  full-canvas, screen-sized and listed first. The camera is 20% of each screen side,
  anchored bottom-right. App.jsx truncates with `parseInt` (modelled over `int`); App.tsx
  keeps the fraction (modelled over `real`).
- **ChunkBuffer** — `recordedBlobs`: emptied on start, grown by each non-empty
  `dataavailable` chunk in arrival order, joined in order by `download` into a
  `video/webm` blob named `Recording-<timestamp>.webm`.
- **StopListener** — `addStreamStopListener`: the four handlers share one `callback`
  binding that is replaced by a no-op after the first firing.
- **Acquisition** — the mount effect's permission flag and whether the mixer gets built.
  The user's answers and the presence of a display-capture API are parameters.
- **DeviceSelector** — `MediaDeviceSelector`: the split of enumerated devices by `kind`
  and the defaulting of the other device on a change.
- **Session** — the `started` flag, the `mediaRecorder` global and the buffer driven by
  Start / data / Stop events under the UI's guards, and by the recorder stopping by
  itself (its `onstop` downloads then too), with a reachable-state invariant and
  an end-to-end recording lemma.

Each handler is one atomic step. Promise timing and React state scheduling are not modelled.
The `Session` module can be mounted two ways. `Session.MountAsWritten` uses the permission flag
as the code computes it. `Session.Mount` uses the corrected flag from the findings below.
The reachable-state invariant is proved from the as-written mount.

Facts about the app that the model keeps:

- Chunks are kept in an in-memory array. There is no persistent chunk store, archive export or auto-stop.
- Permission is false only when the screen request rejects.
- Format selection never fails. The empty configuration is used without being probed.

## Model

| member | source | states |
|---|---|---|
| MimeSelect.FirstSupportedIndex | src/App.jsx:166-178 | the index is the first supported entry of the list: every earlier entry is unsupported, and the index is the list length when none is supported |
| MimeSelect.FirstSupported | src/App.jsx:166-178 | the fallback walk returns the default `""` or a listed entry the platform supports, and returns `""` when nothing is supported |
| MimeSelect.ChooseMimeType | src/App.jsx:166-178 | the probing never fails; it yields `""` or a supported preferred type, and yields `""` only when no preferred type is supported |
| MimeSelect.ChooseAgreesWithReference | src/App.tsx:158-170 | the hand-unrolled probing equals the first-supported walk over the preference order vp9/opus, vp8/opus, webm |
| MimeSelect.ChosenIsFirstSupported | src/App.jsx:166-178 | if entry i is supported, the chosen type is a supported preferred entry at position at most i |
| MimeSelect.DefaultIffNoneSupported | src/App.tsx:158-170 | `""` is chosen exactly when none of the three preferred types is supported |
| OverlayGeometry.TruncatedShare | src/App.jsx:75-76 | the result is the integer part of 20% of the dimension and never exceeds it |
| OverlayGeometry.CameraRequestJsx | src/App.jsx:147-155 | the camera is asked for truncated 20% of each screen side, at 15 fps, with audio |
| OverlayGeometry.CameraOverlayJsx | src/App.jsx:75-81 | the overlay is trunc(20%) of each side, with top + height = screen height and left + width = screen width, so it lies inside the screen |
| OverlayGeometry.MixerInputJsx | src/App.jsx:70-89 | the mixer gets two inputs: first the full-canvas screen with exactly the screen size, then the bottom-right camera overlay, at exactly the truncated 20% size |
| OverlayGeometry.RequestMatchesOverlayJsx | src/App.jsx:147-152 | the size requested from the camera equals the size at which it is drawn |
| OverlayGeometry.OverlayVisibleIffJsx | src/App.jsx:75-79 | the truncated overlay has positive width and height exactly when both screen sides are at least 5 pixels |
| OverlayGeometry.ExactShare | src/App.tsx:72-73 | the unrounded share is exactly one fifth of the dimension, between 0 and the dimension |
| OverlayGeometry.CameraRequestTsx | src/App.tsx:139-148 | the camera is asked for exactly a fifth of each screen side, at 15 fps, with audio |
| OverlayGeometry.CameraOverlayTsx | src/App.tsx:72-78 | the overlay is a fifth of each side; its right and bottom edges coincide with the screen's |
| OverlayGeometry.MixerInputTsx | src/App.tsx:67-83 | the full-canvas, screen-sized screen source is listed first (background), the anchored camera second, at exactly a fifth of each side |
| OverlayGeometry.JsxIsFloorOfTsx | src/App.tsx:72-78 | App.jsx's overlay size is the floor of App.tsx's; its corner is less than one pixel further out |
| ChunkBuffer.HandleDataAvailable | src/App.jsx:209-214 | a chunk is appended iff its data is present with positive size; existing entries keep their place; the joined bytes grow by exactly the event's bytes |
| ChunkBuffer.ReplayIsAcceptedData | src/App.tsx:201-206 | after a start and any events, the buffer is exactly the accepted chunks in arrival order, none of them empty |
| ChunkBuffer.ReplayKeepsAllBytes | src/App.jsx:211-217 | skipping empty or missing chunks never changes the exported bytes: the export equals all delivered data joined in order |
| ChunkBuffer.SplitConcat | src/App.jsx:217 | cutting the exported blob at the chunk sizes gives back every buffered chunk unchanged and in order |
| ChunkBuffer.FileName | src/App.jsx:222 | the name is `Recording-`, then the timestamp, then `.webm`, and the timestamp reads back from it |
| ChunkBuffer.FileNameRoundTrip | src/App.tsx:214 | every download name has the `Recording-…webm` shape and the timestamp can be read back from it |
| ChunkBuffer.FileNameInjective | src/App.jsx:222 | different timestamps give different file names |
| ChunkBuffer.Export | src/App.jsx:217-222 | the artifact is typed `video/webm`, named after the timestamp, and is the in-order join of the buffer (its sizes sum to its length) |
| StopListener.AddStreamStopListener | src/App.jsx:30-65 | after registration the shared binding is the cleanup and nothing has run |
| StopListener.Fire | src/App.jsx:33-36 | a handled event runs the cleanup only if the binding still holds it, and then leaves the binding a no-op; an unhandled event changes nothing |
| StopListener.RunsAtMostOnce | src/App.tsx:12-47 | for any event sequence the cleanup runs at most once, exactly once iff some event reaches a handler, and the binding is a no-op iff it ran |
| StopListener.NeutralisedStaysInert | src/App.jsx:30-65 | once the binding is a no-op, no further event runs the cleanup |
| Acquisition.ScreenStream | src/App.jsx:128-138 | the screen request rejects iff the API exists and the user denies; it yields a stream iff the API exists and the user grants |
| Acquisition.CaptureStream | src/App.jsx:114-126 | `captureStream` is never a stream: it is `null` exactly when the screen promise rejects, otherwise `undefined` |
| Acquisition.PermissionAsWritten | src/App.tsx:53-63 | the flag is false exactly when the screen-capture request rejects |
| Acquisition.MixerBuilt | src/App.jsx:67-89 | the mixer is built iff the API exists and both screen and camera were granted |
| Acquisition.PermissionWithoutDisplayApi | src/App.tsx:122-130 | without a display-capture API the flag is still true though no mixer is built |
| Acquisition.PermissionIgnoresCamera | src/App.tsx:108-120 | a denied camera leaves the flag true though no mixer is built |
| Acquisition.Permission | src/App.jsx:20-25 | the corrected flag is true iff the mixer is built, and it implies the flag as written |
| Acquisition.PermissionAgreesWhenCameraGranted | src/App.tsx:55-60 | with the API present and the camera granted, the corrected and as-written flags coincide |
| DeviceSelector.FilterKind | src/MediaDeviceSelector.tsx:45-46 | the list holds only enumerated devices of the kind, and every enumerated device of the kind is in it |
| DeviceSelector.FilterKindKeepsOrder | src/MediaDeviceSelector.tsx:45-46 | the filtered list is a subsequence of the enumeration, so enumeration order is kept |
| DeviceSelector.FilterKindCount | src/MediaDeviceSelector.tsx:45-46 | the filtered list has one entry per enumerated device of the kind |
| DeviceSelector.FetchDevices | src/MediaDeviceSelector.tsx:43-47 | the audio list holds exactly the `audioinput` devices and the video list exactly the `videoinput` ones; the lists are disjoint and other kinds appear in neither |
| DeviceSelector.FilterKindHead | src/MediaDeviceSelector.tsx:54 | a filtered list is non-empty iff the enumeration has a device of the kind, and its head is the first such device |
| DeviceSelector.FirstIdOrNone | src/MediaDeviceSelector.tsx:54 | the id is `''` for an empty list and the first device's id otherwise |
| DeviceSelector.HandleAudioDeviceChange | src/MediaDeviceSelector.tsx:52-56 | the selected audio id is reported unchanged, paired with the first video device's id or `''` |
| DeviceSelector.HandleVideoDeviceChange | src/MediaDeviceSelector.tsx:58-62 | the selected video id is reported unchanged, paired with the first audio device's id or `''` |
| DeviceSelector.AudioChangeDefaultsVideo | src/MediaDeviceSelector.tsx:52-56 | after enumeration, an audio change pairs the choice with the first enumerated `videoinput` device's id, or `''` if there is none |
| DeviceSelector.VideoChangeDefaultsAudio | src/MediaDeviceSelector.tsx:58-62 | after enumeration, a video change pairs the choice with the first enumerated `audioinput` device's id, or `''` if there is none |
| DeviceSelector.ChangeBeforeEnumeration | src/MediaDeviceSelector.tsx:39-40 | a change made before enumeration completes pairs the choice with `''` |
| Session.MountAsWritten | src/App.tsx:53-63 | the initial state satisfies the invariant, is not started, has no recorder and an empty buffer; controls are withheld exactly when the screen request rejects; the mixer exists iff the API exists and both sources were granted |
| Session.Mount | src/App.jsx:17-28 | the corrected mount: the same initial state, but controls are offered iff both sources were obtained |
| Session.StartRecording | src/App.jsx:164-202 | the buffer is always emptied; `started` becomes true only when a mixer exists and the recorder was built and started; if construction throws, recorder and flag are unchanged; otherwise the recorder uses the chosen format |
| Session.OnData | src/App.jsx:209-214 | a data event changes only the buffer, whose joined bytes grow by the event's bytes |
| Session.Download | src/App.jsx:216-232 | `started` becomes false; the buffer is kept; the file carries the timestamp and the in-order join of the buffer |
| Session.StopRecording | src/App.jsx:193-206 | a file is produced iff a recorder is active; it holds the buffer plus the final chunk, and afterwards nothing is recording or started |
| Session.Step | src/App.jsx:242-319 | the UI guards: Start acts only with permission and while not started, Stop only while started, data only reaches an active recorder; an unclicked recorder stop (its `onstop`, lines 193-198) always runs the stop path; a file appears only from a stop of an active recorder |
| Session.StepPreservesInv | src/App.jsx:180-201 | every guarded step keeps the invariant: `started` iff a recorder is active, a recorder implies a mixer, `started` implies the controls were offered, and no buffered chunk is empty |
| Session.RunPreservesInv | src/App.tsx:172-193 | the invariant holds after any event sequence |
| Session.ReachableStarted | src/App.tsx:191-193 | in every state reachable from the as-written mount, `started` holds exactly when a recorder is active, and then the mixer exists and the controls were offered |
| Session.StartWithoutMixerNeverStarts | src/App.tsx:172-177 | with the screen granted and the camera denied, the as-written flag offers Start, yet no event sequence ever starts a recording or creates a recorder |
| Session.RecorderStopSameAsClick | src/App.tsx:185-189 | a recorder that stops by itself (tracks ended or an error) downloads a file iff it was recording, clears `started`, and behaves exactly like a click on Stop; otherwise nothing happens |
| Session.StopIdempotent | src/App.jsx:204-206 | a second Stop after a Stop changes nothing and downloads nothing |
| Session.RecordingPhase | src/App.tsx:201-206 | while recording, data events only fill the buffer, exactly as a fresh replay of them would |
| Session.StartPhase | src/App.tsx:156-194 | with controls offered and the mixer built, a working recorder starts recording on an empty buffer with the chosen format |
| Session.StopPhase | src/App.tsx:185-189 | Stop while recording downloads exactly one file, holding the buffer plus the final chunk, and clears `started` |
| Session.RecordingRoundTrip | src/App.jsx:164-232 | with controls offered and the mixer built, Start, any data events, Stop: exactly one file, holding all delivered bytes in order and named after the stop time; the app is back to not started |

## Left out

- MultiStreamsMixer internals (`startDrawingFrames`, `getMixedStream`, `releaseStreams`) are not modelled. That library is not part of this model. The mixer appears only as "built or not".
- Media encoding, `getDisplayMedia` / `getUserMedia` and the browser-support probing are not modelled. They are platform I/O. Only the granted / denied / unsupported outcome is kept.
- The two display-capture entry points App.jsx probes (`navigator.getDisplayMedia` and `navigator.mediaDevices.getDisplayMedia`) are merged into one "API present" flag, because they behave the same way.
- Blob URLs, the hidden anchor, the `setTimeout` cleanup, the video preview and leaving picture-in-picture are not modelled. They are DOM side effects.
- The stop listener's cleanup body (releasing the mixer and stopping tracks) is not modelled. Only how many times the cleanup runs is counted.
- Floating-point rounding of `(20/100) * w` is not modelled. App.jsx is modelled with exact integer truncation and App.tsx with exact reals. `parseInt` on exponent notation would only matter for screens wider than about 10^21 pixels.
- `new Date().toISOString()` is a clock, so the timestamp is an opaque string parameter.
- Stop with no recorder produces nothing. In the code, the `mediaRecorder` global is then undefined and the handler throws. A Stop on an inactive recorder is a no-op for the platform.
- A `start()` that throws is modelled as leaving an inactive recorder and `started` unchanged. The rest of such a click handler does not run.
- The license modal, size selector, start/stop control and no-permission screen are presentation. The control's start/stop dispatch is covered by the guards in `Session.Step`.
- Promise and async timing and React state batching are not modelled. Each handler is one atomic step.

## Findings

| source | as written | input that shows it | evidently intended | confidence | as-written member | corrected member |
|---|---|---|---|---|---|---|
| src/App.tsx:122-130 | without a display-capture API, `screenStream()` alerts and resolves `null`. The `.then` callback in `startCameraAndScreen` discards that value, so `captureStream` is `undefined` and the permission flag is set true. | a browser whose `navigator.mediaDevices` has no `getDisplayMedia` | the flag is false: the deliberate `null` return and the `=== null` test are evidently meant to meet | high, not executed | Acquisition.PermissionWithoutDisplayApi | Acquisition.Permission |
| src/App.tsx:108-120 | a camera refusal rejects a promise that nothing awaits, so the flag stays true. The mixer is never built, and every Start then fails silently. | the user grants the screen share and denies the camera | the flag is false unless both sources were obtained, as the app's own permission note asks for camera and screen | medium, not executed | Acquisition.PermissionIgnoresCamera | Acquisition.Permission |

=== FILE: acquisition.dfy ===
/**
 * The permission effect run once on mount: `startCameraAndScreen` asks for the screen
 * share, and on success `afterScreenCaptured` asks for the camera and builds the
 * mixer. The screen request's promise is chained through a `.then` callback that
 * returns nothing, so `captureStream` ends up `undefined` when the chain resolves and
 * keeps its initial `null` when it rejects; the permission flag is `captureStream
 * !== null`. User answers and platform support are parameters.
 */
module Acquisition {

  /** The user's answer to a capture prompt. */
  datatype Answer = Granted | Denied

  /** The JavaScript values that flow through the acquisition chain. */
  datatype JsValue = Null | Undefined | MediaStream

  /** A settled promise. */
  datatype Settled = Resolved(value: JsValue) | Rejected

  /**
   * `screenStream()`: with a display-capture API the prompt's answer decides; without
   * one the function alerts and resolves with `null`. Here `displayApi = false` means
   * that `navigator.mediaDevices` exists but has no `getDisplayMedia`. When
   * `mediaDevices` itself is absent, reading from it throws and the promise rejects,
   * which is the `displayApi = true, screen = Denied` case.
   */
  function ScreenStream(displayApi: bool, screen: Answer): (p: Settled)
    ensures p.Rejected? <==> displayApi && screen.Denied?
    ensures p == Resolved(MediaStream) <==> displayApi && screen.Granted?
  {
    if !displayApi then Resolved(Null)
    else if screen.Granted? then Resolved(MediaStream)
    else Rejected
  }

  /** `await p.then(s => { afterScreenCaptured(s); })` inside `try`, starting from `null`. */
  function CaptureStream(p: Settled): (v: JsValue)
    ensures v != MediaStream
    ensures v == Null <==> p.Rejected?
  {
    match p
    case Resolved(_) => Undefined
    case Rejected => Null
  }

  /** `handlePermission`: the flag the app sets (as written). */
  function PermissionAsWritten(displayApi: bool, screen: Answer): (allowed: bool)
    ensures !allowed <==> ScreenStream(displayApi, screen).Rejected?
    ensures !allowed <==> displayApi && screen.Denied?
  {
    CaptureStream(ScreenStream(displayApi, screen)) != Null
  }

  /**
   * Whether `mixer` gets assigned: only when the screen promise resolved with a real
   * stream and the camera request then succeeded. With a `null` screen stream the
   * camera callback throws at its first property write, before the mixer is built.
   */
  function MixerBuilt(displayApi: bool, screen: Answer, camera: Answer): (built: bool)
    ensures built <==> displayApi && screen.Granted? && camera.Granted?
  {
    ScreenStream(displayApi, screen) == Resolved(MediaStream) && camera.Granted?
  }

  /** A browser without a display-capture API still reaches the recording controls. */
  lemma PermissionWithoutDisplayApi(screen: Answer, camera: Answer)
    ensures PermissionAsWritten(false, screen)
    ensures !MixerBuilt(false, screen, camera)
  {
  }

  /** A denied camera is not reflected in the flag. */
  lemma PermissionIgnoresCamera()
    ensures PermissionAsWritten(true, Granted)
    ensures !MixerBuilt(true, Granted, Denied)
  {
  }

  /**
   * The flag as evidently intended: the controls are offered only when the screen
   * share and the camera were both obtained.
   */
  function Permission(displayApi: bool, screen: Answer, camera: Answer): (allowed: bool)
    ensures allowed <==> MixerBuilt(displayApi, screen, camera)
    ensures allowed ==> PermissionAsWritten(displayApi, screen)
  {
    displayApi && screen.Granted? && camera.Granted?
  }

  /** The two flags agree whenever the API exists and the camera was granted. */
  lemma PermissionAgreesWhenCameraGranted(displayApi: bool, screen: Answer)
    requires displayApi
    ensures Permission(displayApi, screen, Granted) == PermissionAsWritten(displayApi, screen)
  {
  }
}

=== FILE: chunk_buffer.dfy ===
/**
 * The in-memory recording buffer (`recordedBlobs`) and its export: `startRecording`
 * empties it, `handleDataAvailable` appends each non-empty encoder chunk in arrival
 * order, and `download` joins the chunks, in order, into one WebM blob named
 * `Recording-<timestamp>.webm`.
 */
module ChunkBuffer {
  import opened Wrappers

  newtype byte = x: int | 0 <= x < 256

  /** A blob's contents; its `size` is the length. */
  type Blob = seq<byte>

  /** A `dataavailable` event; `data` may be missing. */
  datatype DataEvent = DataEvent(data: Option<Blob>)

  /** The file handed to the browser by `download`. */
  datatype Artifact = Artifact(name: string, mimeType: string, bytes: Blob)

  const FilePrefix: string := "Recording-"
  const FileSuffix: string := ".webm"

  /** The blob type is fixed, whatever encoder configuration was chosen. */
  const ExportMimeType: string := "video/webm"

  /** What starting a recording leaves in the buffer. */
  const EmptyBuffer: seq<Blob> := []

  /** The chunks joined in order. */
  function Concat(chunks: seq<Blob>): Blob
  {
    if |chunks| == 0 then [] else Concat(chunks[..|chunks| - 1]) + chunks[|chunks| - 1]
  }

  /** The bytes an event contributes to the joined blob (none when its data is missing). */
  function EventBytes(ev: DataEvent): Blob
  {
    ev.data.GetOr([])
  }

  /** The event carries data whose size is positive. */
  predicate Accepted(ev: DataEvent)
  {
    ev.data.Some? && |ev.data.value| > 0
  }

  /** Every buffered chunk is non-empty. */
  ghost predicate AllNonEmpty(chunks: seq<Blob>)
  {
    forall i :: 0 <= i < |chunks| ==> |chunks[i]| > 0
  }

  /** `handleDataAvailable`. */
  function HandleDataAvailable(buffer: seq<Blob>, ev: DataEvent): (buffer': seq<Blob>)
    ensures |buffer| <= |buffer'| && buffer'[..|buffer|] == buffer
    ensures |buffer'| == |buffer| + 1 <==> Accepted(ev)
    ensures |buffer'| == |buffer| <==> !Accepted(ev)
    ensures Accepted(ev) ==> buffer'[|buffer|] == ev.data.value
    ensures AllNonEmpty(buffer) ==> AllNonEmpty(buffer')
    ensures Concat(buffer') == Concat(buffer) + EventBytes(ev)
  {
    if Accepted(ev) then
      assert (buffer + [ev.data.value])[..|buffer|] == buffer;
      buffer + [ev.data.value]
    else
      assert buffer[..|buffer|] == buffer;
      buffer
  }

  /** The buffer after a recording started and received `events`. */
  function Replay(events: seq<DataEvent>): seq<Blob>
  {
    if |events| == 0 then EmptyBuffer
    else HandleDataAvailable(Replay(events[..|events| - 1]), events[|events| - 1])
  }

  /** Reference definition: the accepted events' data, in arrival order. */
  function AcceptedData(events: seq<DataEvent>): seq<Blob>
  {
    if |events| == 0 then []
    else if Accepted(events[|events| - 1]) then AcceptedData(events[..|events| - 1]) + [events[|events| - 1].data.value]
    else AcceptedData(events[..|events| - 1])
  }

  /** All data carried by the events, joined, empty chunks included. */
  function AllBytes(events: seq<DataEvent>): Blob
  {
    if |events| == 0 then [] else AllBytes(events[..|events| - 1]) + EventBytes(events[|events| - 1])
  }

  /** The buffer holds exactly the accepted chunks in arrival order, and none is empty. */
  lemma {:induction false} ReplayIsAcceptedData(events: seq<DataEvent>)
    ensures Replay(events) == AcceptedData(events)
    ensures AllNonEmpty(Replay(events))
  {
    if |events| > 0 {
      ReplayIsAcceptedData(events[..|events| - 1]);
    }
  }

  /** Dropping empty or missing chunks never changes the exported bytes. */
  lemma {:induction false} ReplayKeepsAllBytes(events: seq<DataEvent>)
    ensures Concat(Replay(events)) == AllBytes(events)
  {
    if |events| > 0 {
      ReplayKeepsAllBytes(events[..|events| - 1]);
    }
  }

  /** The size of each chunk, in order. */
  function Sizes(chunks: seq<Blob>): (sizes: seq<nat>)
    ensures |sizes| == |chunks|
    ensures forall i :: 0 <= i < |chunks| ==> sizes[i] == |chunks[i]|
  {
    if |chunks| == 0 then [] else Sizes(chunks[..|chunks| - 1]) + [|chunks[|chunks| - 1]|]
  }

  function Sum(sizes: seq<nat>): nat
  {
    if |sizes| == 0 then 0 else Sum(sizes[..|sizes| - 1]) + sizes[|sizes| - 1]
  }

  /** Cuts `bytes` back into chunks of the given sizes, the last chunk first. */
  function Split(bytes: Blob, sizes: seq<nat>): seq<Blob>
    requires Sum(sizes) == |bytes|
    decreases |sizes|
  {
    if |sizes| == 0 then []
    else
      var last := sizes[|sizes| - 1];
      var cut := |bytes| - last;
      Split(bytes[..cut], sizes[..|sizes| - 1]) + [bytes[cut..]]
  }

  lemma {:induction false} ConcatLength(chunks: seq<Blob>)
    ensures |Concat(chunks)| == Sum(Sizes(chunks))
  {
    if |chunks| > 0 {
      ConcatLength(chunks[..|chunks| - 1]);
      assert Sizes(chunks)[..|chunks| - 1] == Sizes(chunks[..|chunks| - 1]);
    }
  }

  /**
   * Round trip: the exported blob loses no chunk boundary information — cutting it at
   * the recorded sizes gives back every buffered chunk unchanged, in order.
   */
  lemma {:induction false} SplitConcat(chunks: seq<Blob>)
    ensures Sum(Sizes(chunks)) == |Concat(chunks)|
    ensures Split(Concat(chunks), Sizes(chunks)) == chunks
  {
    ConcatLength(chunks);
    if |chunks| > 0 {
      var init := chunks[..|chunks| - 1];
      var sizes := Sizes(chunks);
      assert sizes[..|sizes| - 1] == Sizes(init);
      var bytes := Concat(chunks);
      var cut := |bytes| - sizes[|sizes| - 1];
      ConcatLength(init);
      assert cut == |Concat(init)|;
      assert bytes[..cut] == Concat(init);
      assert bytes[cut..] == chunks[|chunks| - 1];
      SplitConcat(init);
      assert chunks == init + [chunks[|chunks| - 1]];
    }
  }

  /** The download name for a given ISO-8601 timestamp. */
  function FileName(timestamp: string): (name: string)
    ensures |name| == |FilePrefix| + |timestamp| + |FileSuffix|
    ensures name[..|FilePrefix|] == FilePrefix
    ensures name[|FilePrefix|..|name| - |FileSuffix|] == timestamp
    ensures name[|name| - |FileSuffix|..] == FileSuffix
    ensures TimestampOf(name) == Some(timestamp)
  {
    var name := FilePrefix + timestamp + FileSuffix;
    assert name[..|FilePrefix|] == FilePrefix;
    assert name[|FilePrefix|..|name| - |FileSuffix|] == timestamp;
    assert name[|name| - |FileSuffix|..] == FileSuffix;
    name
  }

  /** Recovers the timestamp from a download name, if it has the recording shape. */
  function TimestampOf(name: string): Option<string>
  {
    if |name| >= |FilePrefix| + |FileSuffix|
       && name[..|FilePrefix|] == FilePrefix
       && name[|name| - |FileSuffix|..] == FileSuffix
    then Some(name[|FilePrefix|..|name| - |FileSuffix|])
    else None
  }

  /** Round trip: the name always has the recording shape and carries the timestamp. */
  lemma FileNameRoundTrip(timestamp: string)
    ensures TimestampOf(FileName(timestamp)) == Some(timestamp)
  {
  }

  /** Distinct timestamps give distinct file names. */
  lemma FileNameInjective(a: string, b: string)
    requires FileName(a) == FileName(b)
    ensures a == b
  {
    FileNameRoundTrip(a);
    FileNameRoundTrip(b);
  }

  /** The blob and file name `download` produces from the buffer. */
  function Export(buffer: seq<Blob>, timestamp: string): (a: Artifact)
    ensures TimestampOf(a.name) == Some(timestamp)
    ensures a.mimeType == ExportMimeType
    ensures |a.bytes| == Sum(Sizes(buffer))
    ensures Split(a.bytes, Sizes(buffer)) == buffer
  {
    FileNameRoundTrip(timestamp);
    SplitConcat(buffer);
    Artifact(FileName(timestamp), ExportMimeType, Concat(buffer))
  }
}

=== FILE: device_selector.dfy ===
/**
 * `MediaDeviceSelector`: the enumerated devices are split by `kind` into the audio
 * and video input lists, and changing one selection reports it together with the
 * first device of the other list (or `''` when that list is empty).
 */
module DeviceSelector {
  import opened Wrappers

  const AudioInput: string := "audioinput"
  const VideoInput: string := "videoinput"

  /** The identifier reported when the other list is empty. */
  const NoDevice: string := ""

  /** One entry of `enumerateDevices()`. */
  datatype Device = Device(deviceId: string, kind: string, deviceLabel: string)

  /** The component's state: both lists start empty until enumeration completes. */
  datatype Selector = Selector(audioDevices: seq<Device>, videoDevices: seq<Device>)

  /** What `onDeviceSelect` receives. */
  datatype Selection = Selection(audioDeviceId: string, videoDeviceId: string)

  const InitialSelector: Selector := Selector([], [])

  /** `devices.filter((device) => device.kind === kind)`. */
  function FilterKind(devices: seq<Device>, kind: string): (r: seq<Device>)
    ensures |r| <= |devices|
    ensures forall d :: d in r ==> d in devices && d.kind == kind
    ensures forall i :: 0 <= i < |devices| && devices[i].kind == kind ==> devices[i] in r
  {
    if |devices| == 0 then []
    else if devices[0].kind == kind then [devices[0]] + FilterKind(devices[1..], kind)
    else FilterKind(devices[1..], kind)
  }

  /** `a` is `b` with some entries removed, the rest in their original order. */
  ghost predicate IsSubsequence<T>(a: seq<T>, b: seq<T>)
    decreases |b|
  {
    if |a| == 0 then true
    else if |b| == 0 then false
    else if a[0] == b[0] then IsSubsequence(a[1..], b[1..])
    else IsSubsequence(a, b[1..])
  }

  /** The filtered list keeps enumeration order. */
  lemma {:induction false} FilterKindKeepsOrder(devices: seq<Device>, kind: string)
    ensures IsSubsequence(FilterKind(devices, kind), devices)
  {
    if |devices| > 0 {
      FilterKindKeepsOrder(devices[1..], kind);
      var r := FilterKind(devices, kind);
      if devices[0].kind == kind {
        assert r[0] == devices[0] && r[1..] == FilterKind(devices[1..], kind);
      } else {
        var tail := FilterKind(devices[1..], kind);
        if |tail| > 0 {
          assert tail[0].kind == kind;
        }
      }
    }
  }

  /** The number of enumerated devices of a kind. */
  function CountKind(devices: seq<Device>, kind: string): nat
  {
    if |devices| == 0 then 0
    else (if devices[0].kind == kind then 1 else 0) + CountKind(devices[1..], kind)
  }

  /** Nothing is duplicated or lost: one list entry per enumerated device of the kind. */
  lemma {:induction false} FilterKindCount(devices: seq<Device>, kind: string)
    ensures |FilterKind(devices, kind)| == CountKind(devices, kind)
  {
    if |devices| > 0 {
      FilterKindCount(devices[1..], kind);
    }
  }

  /** `fetchDevices`. */
  function FetchDevices(devices: seq<Device>): (s: Selector)
    ensures forall d :: d in s.audioDevices <==> d in devices && d.kind == AudioInput
    ensures forall d :: d in s.videoDevices <==> d in devices && d.kind == VideoInput
    ensures forall d :: d in s.audioDevices ==> d !in s.videoDevices
    ensures forall d :: d in devices && d.kind != AudioInput && d.kind != VideoInput
              ==> d !in s.audioDevices && d !in s.videoDevices
  {
    Selector(FilterKind(devices, AudioInput), FilterKind(devices, VideoInput))
  }

  /** The first device of `devices` having `kind`, found independently of the filter. */
  function FirstOfKind(devices: seq<Device>, kind: string): (r: Option<Device>)
    ensures r.Some? ==> r.value in devices && r.value.kind == kind
  {
    if |devices| == 0 then None
    else if devices[0].kind == kind then Some(devices[0])
    else FirstOfKind(devices[1..], kind)
  }

  /** The head of a filtered list is the first enumerated device of that kind. */
  lemma {:induction false} FilterKindHead(devices: seq<Device>, kind: string)
    ensures |FilterKind(devices, kind)| > 0 <==> FirstOfKind(devices, kind).Some?
    ensures |FilterKind(devices, kind)| > 0 ==> FilterKind(devices, kind)[0] == FirstOfKind(devices, kind).value
  {
    if |devices| > 0 && devices[0].kind != kind {
      FilterKindHead(devices[1..], kind);
    }
  }

  /** `videoDevices.length > 0 ? videoDevices[0].deviceId : ''`, and its audio twin. */
  function FirstIdOrNone(devices: seq<Device>): (id: string)
    ensures |devices| == 0 ==> id == NoDevice
    ensures |devices| > 0 ==> id == devices[0].deviceId
  {
    if |devices| > 0 then devices[0].deviceId else NoDevice
  }

  /** `handleAudioDeviceChange`. */
  function HandleAudioDeviceChange(s: Selector, selected: string): (r: Selection)
    ensures r.audioDeviceId == selected
    ensures r.videoDeviceId == FirstIdOrNone(s.videoDevices)
  {
    Selection(selected, FirstIdOrNone(s.videoDevices))
  }

  /** `handleVideoDeviceChange`. */
  function HandleVideoDeviceChange(s: Selector, selected: string): (r: Selection)
    ensures r.videoDeviceId == selected
    ensures r.audioDeviceId == FirstIdOrNone(s.audioDevices)
  {
    Selection(FirstIdOrNone(s.audioDevices), selected)
  }

  /**
   * After enumeration, an audio change keeps the chosen audio id and pairs it with the
   * first enumerated video input, or `''` when there is none.
   */
  lemma AudioChangeDefaultsVideo(devices: seq<Device>, selected: string)
    ensures var r := HandleAudioDeviceChange(FetchDevices(devices), selected);
            && r.audioDeviceId == selected
            && r.videoDeviceId == match FirstOfKind(devices, VideoInput)
                                  case None => NoDevice
                                  case Some(d) => d.deviceId
  {
  }

  /** The mirror image for a video change. */
  lemma VideoChangeDefaultsAudio(devices: seq<Device>, selected: string)
    ensures var r := HandleVideoDeviceChange(FetchDevices(devices), selected);
            && r.videoDeviceId == selected
            && r.audioDeviceId == match FirstOfKind(devices, AudioInput)
                                  case None => NoDevice
                                  case Some(d) => d.deviceId
  {
  }

  /** A change made before enumeration completes pairs the choice with `''`. */
  lemma ChangeBeforeEnumeration(selected: string)
    ensures HandleAudioDeviceChange(InitialSelector, selected) == Selection(selected, NoDevice)
    ensures HandleVideoDeviceChange(InitialSelector, selected) == Selection(NoDevice, selected)
  {
  }
}

=== FILE: mime_select.dfy ===
/**
 * The encoder-format fallback of `startRecording`: the recorder is given the first
 * container/codec string of a fixed preference list that the platform reports as
 * supported, and the empty string (the recorder's own default) when none is.
 * The platform's `MediaRecorder.isTypeSupported` is an uninterpreted predicate.
 */
module MimeSelect {

  const Vp9Opus: string := "video/webm;codecs=vp9,opus"
  const Vp8Opus: string := "video/webm;codecs=vp8,opus"
  const Webm: string := "video/webm"

  /** The configuration used when no preferred type is supported. */
  const PlatformDefault: string := ""

  /** Most preferred first. */
  const Preferences: seq<string> := [Vp9Opus, Vp8Opus, Webm]

  /** Index of the first entry of `prefs` that `isTypeSupported` accepts, `|prefs|` if none. */
  function FirstSupportedIndex(prefs: seq<string>, isTypeSupported: string -> bool): (k: nat)
    ensures k <= |prefs|
    ensures k < |prefs| ==> isTypeSupported(prefs[k])
    ensures forall j :: 0 <= j < k ==> !isTypeSupported(prefs[j])
    decreases |prefs|
  {
    if |prefs| == 0 then 0
    else if isTypeSupported(prefs[0]) then 0
    else 1 + FirstSupportedIndex(prefs[1..], isTypeSupported)
  }

  /** Reference definition of the fallback walk over any preference list. */
  function FirstSupported(prefs: seq<string>, isTypeSupported: string -> bool): (m: string)
    ensures m == PlatformDefault || (m in prefs && isTypeSupported(m))
    ensures (forall j :: 0 <= j < |prefs| ==> !isTypeSupported(prefs[j])) ==> m == PlatformDefault
  {
    var k := FirstSupportedIndex(prefs, isTypeSupported);
    if k < |prefs| then prefs[k] else PlatformDefault
  }

  /**
   * The nested probing of `startRecording`: try VP9/Opus, then VP8/Opus, then plain
   * WebM, and otherwise fall back to the empty configuration. It never fails.
   */
  function ChooseMimeType(isTypeSupported: string -> bool): (m: string)
    ensures m == PlatformDefault || (m in Preferences && isTypeSupported(m))
    ensures m == PlatformDefault ==> forall j :: 0 <= j < |Preferences| ==> !isTypeSupported(Preferences[j])
  {
    if isTypeSupported(Vp9Opus) then Vp9Opus
    else if isTypeSupported(Vp8Opus) then Vp8Opus
    else if isTypeSupported(Webm) then Webm
    else PlatformDefault
  }

  /** The hand-unrolled probing agrees with the reference walk over `Preferences`. */
  lemma ChooseAgreesWithReference(isTypeSupported: string -> bool)
    ensures ChooseMimeType(isTypeSupported) == FirstSupported(Preferences, isTypeSupported)
  {
  }

  /** Every preferred entry that comes before the chosen one was rejected by the platform. */
  lemma ChosenIsFirstSupported(isTypeSupported: string -> bool, i: nat)
    requires i < |Preferences| && isTypeSupported(Preferences[i])
    ensures ChooseMimeType(isTypeSupported) in Preferences
    ensures isTypeSupported(ChooseMimeType(isTypeSupported))
    ensures forall j :: 0 <= j < |Preferences| && Preferences[j] == ChooseMimeType(isTypeSupported) ==> j <= i
  {
  }

  /** The empty configuration is chosen exactly when no preferred entry is supported. */
  lemma DefaultIffNoneSupported(isTypeSupported: string -> bool)
    ensures ChooseMimeType(isTypeSupported) == PlatformDefault
        <==> forall j :: 0 <= j < |Preferences| ==> !isTypeSupported(Preferences[j])
  {
  }
}

=== FILE: overlay_geometry.dfy ===
/**
 * Placement of the two mixer inputs built by `afterScreenCaptured`: the screen share
 * fills the whole canvas and is listed first (it is painted as the background), the
 * camera "selfie" is 20% of each screen dimension and sits in the bottom-right corner.
 * App.jsx truncates the overlay size with `parseInt`; App.tsx keeps the fraction, so
 * the same shapes are instantiated over `int` and over `real`.
 */
module OverlayGeometry {

  /** Percentage of each screen dimension given to the camera overlay. */
  const OverlayPercent: nat := 20

  /** Frame rate requested from the camera. */
  const CameraFrameRate: nat := 15

  datatype Role = Screen | Camera

  /** Where a source is drawn; the screen source is never given a position. */
  datatype Placement<N> = Unplaced | At(top: N, left: N)

  /** One entry of the mixer's input list, with the render attributes the app sets on it. */
  datatype Source<N> = Source(role: Role, fullCanvas: bool, width: N, height: N, placement: Placement<N>)

  /** The `getUserMedia` request for the camera: the overlay size, 15 fps, with audio. */
  datatype CameraRequest<N> = CameraRequest(width: N, height: N, frameRate: nat, audio: bool)

  /** The screen entry: flagged full-canvas and sized to the screen. */
  ghost predicate IsBackground<N>(s: Source<N>, screenWidth: N, screenHeight: N)
  {
    s.role == Screen && s.fullCanvas && s.width == screenWidth && s.height == screenHeight
  }

  /** A rectangle anchored to the bottom-right corner of the screen and inside it. */
  ghost predicate AnchoredBottomRight(s: Source<int>, screenWidth: nat, screenHeight: nat)
  {
    && s.placement.At?
    && 0 <= s.width <= screenWidth && 0 <= s.height <= screenHeight
    && s.placement.top + s.height == screenHeight
    && s.placement.left + s.width == screenWidth
    && 0 <= s.placement.top && 0 <= s.placement.left
  }

  ghost predicate AnchoredBottomRightReal(s: Source<real>, screenWidth: real, screenHeight: real)
  {
    && s.placement.At?
    && 0.0 <= s.width <= screenWidth && 0.0 <= s.height <= screenHeight
    && s.placement.top + s.height == screenHeight
    && s.placement.left + s.width == screenWidth
    && 0.0 <= s.placement.top && 0.0 <= s.placement.left
  }

  // ---------------------------------------------------------------- App.jsx

  /**
   * `parseInt((20/100) * d)`: the exact product is non-negative, so truncation is
   * Dafny's integer division.
   */
  function TruncatedShare(d: nat): (r: nat)
    ensures 100 * r <= OverlayPercent * d < 100 * r + 100
    ensures r <= d
  {
    OverlayPercent * d / 100
  }

  /** The camera size App.jsx asks `getUserMedia` for. */
  function CameraRequestJsx(screenWidth: nat, screenHeight: nat): (q: CameraRequest<int>)
    ensures 5 * q.width <= screenWidth < 5 * q.width + 5
    ensures 5 * q.height <= screenHeight < 5 * q.height + 5
    ensures q.frameRate == 15 && q.audio
  {
    CameraRequest(TruncatedShare(screenWidth), TruncatedShare(screenHeight), CameraFrameRate, true)
  }

  /** The camera overlay App.jsx hands to the mixer. */
  function CameraOverlayJsx(screenWidth: nat, screenHeight: nat): (c: Source<int>)
    ensures c.role == Camera && !c.fullCanvas
    ensures AnchoredBottomRight(c, screenWidth, screenHeight)
    ensures 5 * c.width <= screenWidth < 5 * c.width + 5
    ensures 5 * c.height <= screenHeight < 5 * c.height + 5
  {
    var w := TruncatedShare(screenWidth);
    var h := TruncatedShare(screenHeight);
    Source(Camera, false, w, h, At(screenHeight - h, screenWidth - w))
  }

  /** The input list App.jsx passes to the mixer: background first, then the overlay. */
  function MixerInputJsx(screenWidth: nat, screenHeight: nat): (inputs: seq<Source<int>>)
    ensures |inputs| == 2
    ensures IsBackground(inputs[0], screenWidth as int, screenHeight as int)
    ensures inputs[1].role == Camera && AnchoredBottomRight(inputs[1], screenWidth, screenHeight)
    ensures inputs[1] == CameraOverlayJsx(screenWidth, screenHeight)
  {
    [Source(Screen, true, screenWidth, screenHeight, Unplaced), CameraOverlayJsx(screenWidth, screenHeight)]
  }

  /** The camera is asked for exactly the size at which it is then drawn. */
  lemma RequestMatchesOverlayJsx(screenWidth: nat, screenHeight: nat)
    ensures CameraRequestJsx(screenWidth, screenHeight).width == CameraOverlayJsx(screenWidth, screenHeight).width
    ensures CameraRequestJsx(screenWidth, screenHeight).height == CameraOverlayJsx(screenWidth, screenHeight).height
  {
  }

  /** The truncated overlay has positive width and height exactly when both screen sides are at least 5. */
  lemma OverlayVisibleIffJsx(screenWidth: nat, screenHeight: nat)
    ensures var c := CameraOverlayJsx(screenWidth, screenHeight);
            c.width > 0 && c.height > 0 <==> screenWidth >= 5 && screenHeight >= 5
  {
  }

  // ---------------------------------------------------------------- App.tsx

  /** `(20 / 100) * d` without rounding. */
  function ExactShare(d: real): (r: real)
    requires 0.0 <= d
    ensures 5.0 * r == d
    ensures 0.0 <= r <= d
  {
    (OverlayPercent as real / 100.0) * d
  }

  function CameraRequestTsx(screenWidth: nat, screenHeight: nat): (q: CameraRequest<real>)
    ensures 5.0 * q.width == screenWidth as real && 5.0 * q.height == screenHeight as real
    ensures q.frameRate == 15 && q.audio
  {
    CameraRequest(ExactShare(screenWidth as real), ExactShare(screenHeight as real), CameraFrameRate, true)
  }

  function CameraOverlayTsx(screenWidth: nat, screenHeight: nat): (c: Source<real>)
    ensures c.role == Camera && !c.fullCanvas
    ensures AnchoredBottomRightReal(c, screenWidth as real, screenHeight as real)
    ensures 5.0 * c.width == screenWidth as real && 5.0 * c.height == screenHeight as real
  {
    var w := ExactShare(screenWidth as real);
    var h := ExactShare(screenHeight as real);
    Source(Camera, false, w, h, At(screenHeight as real - h, screenWidth as real - w))
  }

  function MixerInputTsx(screenWidth: nat, screenHeight: nat): (inputs: seq<Source<real>>)
    ensures |inputs| == 2
    ensures IsBackground(inputs[0], screenWidth as real, screenHeight as real)
    ensures inputs[1].role == Camera
    ensures AnchoredBottomRightReal(inputs[1], screenWidth as real, screenHeight as real)
    ensures inputs[1] == CameraOverlayTsx(screenWidth, screenHeight)
  {
    [Source(Screen, true, screenWidth as real, screenHeight as real, Unplaced),
     CameraOverlayTsx(screenWidth, screenHeight)]
  }

  /**
   * The two versions agree up to truncation: App.jsx's overlay is the floor of
   * App.tsx's, and its corner is correspondingly at most one pixel further out.
   */
  lemma JsxIsFloorOfTsx(screenWidth: nat, screenHeight: nat)
    ensures var j := CameraOverlayJsx(screenWidth, screenHeight);
            var t := CameraOverlayTsx(screenWidth, screenHeight);
            && j.width as real <= t.width < j.width as real + 1.0
            && j.height as real <= t.height < j.height as real + 1.0
            && t.placement.top <= j.placement.top as real < t.placement.top + 1.0
            && t.placement.left <= j.placement.left as real < t.placement.left + 1.0
  {
  }
}

=== FILE: session.dfy ===
/**
 * The app's session flags and recorder lifecycle, one atomic step per user or
 * recorder event: mounting acquires the sources, Start builds and starts a recorder
 * on the mixed stream, `dataavailable` fills the buffer, and Stop makes the recorder
 * flush its last chunk and fire `onstop`, which runs `download`. The recorder may also
 * stop by itself (its tracks ended, or a fatal error); `onstop` then runs `download`
 * just the same, with no click.
 */
module Session {
  import opened Wrappers
  import MimeSelect
  import ChunkBuffer
  import Acquisition

  /** The `mediaRecorder` global: its configuration and whether it is recording. */
  datatype Recorder = Recorder(mimeType: string, active: bool)

  /** How the platform's `MediaRecorder` behaves for this attempt. */
  datatype RecorderOutcome =
    | RejectsOptions   // the constructor throws
    | FailsToStart     // constructed, but `start()` throws
    | Records          // constructed and recording

  /** React state plus the module-level variables the handlers share. */
  datatype App = App(
    permissionAllowed: bool,
    mixerReady: bool,
    started: bool,
    recorder: Option<Recorder>,
    buffer: seq<ChunkBuffer.Blob>)

  /** One event delivered to the app. */
  datatype UiEvent =
    | ClickStart(isTypeSupported: string -> bool, outcome: RecorderOutcome)
    | Data(ev: ChunkBuffer.DataEvent)
    | ClickStop(final: ChunkBuffer.DataEvent, timestamp: string)
    | RecorderStopped(final: ChunkBuffer.DataEvent, timestamp: string)  // stopped without a click

  predicate Recording(app: App)
  {
    app.recorder.Some? && app.recorder.value.active
  }

  /** What every reachable state satisfies. */
  ghost predicate Inv(app: App)
  {
    && (app.started <==> Recording(app))
    && (app.recorder.Some? ==> app.mixerReady)
    && (app.started ==> app.permissionAllowed)
    && ChunkBuffer.AllNonEmpty(app.buffer)
  }

  /** The mount effect as written: controls are offered unless the screen request rejected. */
  function MountAsWritten(displayApi: bool, screen: Acquisition.Answer, camera: Acquisition.Answer): (app: App)
    ensures Inv(app)
    ensures !app.started && app.recorder.None? && app.buffer == []
    ensures !app.permissionAllowed <==> displayApi && screen.Denied?
    ensures app.mixerReady <==> displayApi && screen.Granted? && camera.Granted?
  {
    App(Acquisition.PermissionAsWritten(displayApi, screen),
        Acquisition.MixerBuilt(displayApi, screen, camera), false, None, ChunkBuffer.EmptyBuffer)
  }

  /** The mount effect, with the permission flag as evidently intended. */
  function Mount(displayApi: bool, screen: Acquisition.Answer, camera: Acquisition.Answer): (app: App)
    ensures Inv(app)
    ensures !app.started && app.recorder.None? && app.buffer == []
    ensures app.permissionAllowed <==> displayApi && screen.Granted? && camera.Granted?
  {
    App(Acquisition.Permission(displayApi, screen, camera),
        Acquisition.MixerBuilt(displayApi, screen, camera), false, None, ChunkBuffer.EmptyBuffer)
  }

  /**
   * `startRecording`: the buffer is emptied first, whatever happens next. Reading the
   * mixed stream of a missing mixer throws inside the same `try` as the constructor.
   */
  function StartRecording(app: App, isTypeSupported: string -> bool, outcome: RecorderOutcome): (r: App)
    ensures r.buffer == []
    ensures r.permissionAllowed == app.permissionAllowed && r.mixerReady == app.mixerReady
    ensures r.started <==> app.started || (app.mixerReady && outcome.Records?)
    ensures !app.mixerReady || outcome.RejectsOptions? ==> r.recorder == app.recorder && r.started == app.started
    ensures app.mixerReady && !outcome.RejectsOptions? ==>
              r.recorder == Some(Recorder(MimeSelect.ChooseMimeType(isTypeSupported), outcome.Records?))
  {
    var emptied := app.(buffer := ChunkBuffer.EmptyBuffer);
    var mime := MimeSelect.ChooseMimeType(isTypeSupported);
    if !app.mixerReady || outcome.RejectsOptions? then emptied
    else if outcome.FailsToStart? then emptied.(recorder := Some(Recorder(mime, false)))
    else emptied.(recorder := Some(Recorder(mime, true)), started := true)
  }

  /** `handleDataAvailable` on the session's buffer. */
  function OnData(app: App, ev: ChunkBuffer.DataEvent): (r: App)
    ensures r.started == app.started && r.recorder == app.recorder
    ensures r.permissionAllowed == app.permissionAllowed && r.mixerReady == app.mixerReady
    ensures ChunkBuffer.Concat(r.buffer) == ChunkBuffer.Concat(app.buffer) + ChunkBuffer.EventBytes(ev)
  {
    app.(buffer := ChunkBuffer.HandleDataAvailable(app.buffer, ev))
  }

  /** `download`: export the buffer and clear `started`; the buffer itself is kept. */
  function Download(app: App, timestamp: string): (r: (App, ChunkBuffer.Artifact))
    ensures !r.0.started
    ensures r.0.buffer == app.buffer && r.0.recorder == app.recorder
    ensures r.0.permissionAllowed == app.permissionAllowed && r.0.mixerReady == app.mixerReady
    ensures ChunkBuffer.TimestampOf(r.1.name) == Some(timestamp)
    ensures r.1.bytes == ChunkBuffer.Concat(app.buffer)
  {
    (app.(started := false), ChunkBuffer.Export(app.buffer, timestamp))
  }

  /**
   * `stopRecording` and what the recorder does in response: deliver its last chunk,
   * then fire `onstop`. Without an active recorder nothing is produced.
   */
  function StopRecording(app: App, final: ChunkBuffer.DataEvent, timestamp: string): (r: (App, Option<ChunkBuffer.Artifact>))
    ensures r.1.Some? <==> Recording(app)
    ensures !Recording(app) ==> r.0 == app
    ensures Recording(app) ==> !r.0.started && !Recording(r.0)
    ensures Recording(app) ==> r.1.value.bytes == ChunkBuffer.Concat(app.buffer) + ChunkBuffer.EventBytes(final)
  {
    if Recording(app) then
      var flushed := OnData(app, final).(recorder := Some(app.recorder.value.(active := false)));
      var (done, artifact) := Download(flushed, timestamp);
      (done, Some(artifact))
    else (app, None)
  }

  /**
   * One event with the UI's guards: the Start control is offered only when permission
   * was granted and nothing is recording, Stop only while recording, and the recorder
   * emits data only while it is active. A recorder that stops by itself is not guarded
   * by the UI.
   */
  function Step(app: App, e: UiEvent): (r: (App, Option<ChunkBuffer.Artifact>))
    ensures e.ClickStart? ==>
              r == if app.permissionAllowed && !app.started
                   then (StartRecording(app, e.isTypeSupported, e.outcome), None) else (app, None)
    ensures e.ClickStop? ==>
              r == if app.permissionAllowed && app.started
                   then StopRecording(app, e.final, e.timestamp) else (app, None)
    ensures e.Data? ==> r == if Recording(app) then (OnData(app, e.ev), None) else (app, None)
    ensures e.RecorderStopped? ==> r == StopRecording(app, e.final, e.timestamp)
    ensures r.1.Some? ==> (e.ClickStop? || e.RecorderStopped?) && Recording(app)
  {
    match e
    case ClickStart(isTypeSupported, outcome) =>
      if app.permissionAllowed && !app.started then (StartRecording(app, isTypeSupported, outcome), None)
      else (app, None)
    case Data(ev) =>
      if Recording(app) then (OnData(app, ev), None) else (app, None)
    case ClickStop(final, timestamp) =>
      if app.permissionAllowed && app.started then StopRecording(app, final, timestamp)
      else (app, None)
    case RecorderStopped(final, timestamp) =>
      StopRecording(app, final, timestamp)
  }

  /**
   * A recorder that stops by itself downloads the buffer plus its last chunk and
   * clears `started`, exactly as a click on Stop would; without an active recorder
   * nothing happens.
   */
  lemma RecorderStopSameAsClick(app: App, final: ChunkBuffer.DataEvent, ts: string)
    requires Inv(app)
    ensures Step(app, RecorderStopped(final, ts)).1.Some? <==> app.started
    ensures app.started ==> !Step(app, RecorderStopped(final, ts)).0.started
    ensures app.started ==> Step(app, RecorderStopped(final, ts)) == Step(app, ClickStop(final, ts))
    ensures !app.started ==> Step(app, RecorderStopped(final, ts)) == (app, None)
  {
  }

  lemma StepPreservesInv(app: App, e: UiEvent)
    requires Inv(app)
    ensures Inv(Step(app, e).0)
  {
  }

  /** The state after a sequence of events, and the files downloaded on the way. */
  function Run(app: App, events: seq<UiEvent>): (App, seq<ChunkBuffer.Artifact>)
  {
    if |events| == 0 then (app, [])
    else
      var before := Run(app, events[..|events| - 1]);
      var step := Step(before.0, events[|events| - 1]);
      (step.0, before.1 + Downloads(step.1))
  }

  /** The downloaded files a step adds to the list. */
  function Downloads(produced: Option<ChunkBuffer.Artifact>): (files: seq<ChunkBuffer.Artifact>)
    ensures |files| <= 1
    ensures produced.Some? ==> files == [produced.value]
    ensures produced.None? ==> files == []
  {
    if produced.Some? then [produced.value] else []
  }

  lemma {:induction false} RunPreservesInv(app: App, events: seq<UiEvent>)
    requires Inv(app)
    ensures Inv(Run(app, events).0)
  {
    if |events| > 0 {
      RunPreservesInv(app, events[..|events| - 1]);
      StepPreservesInv(Run(app, events[..|events| - 1]).0, events[|events| - 1]);
    }
  }

  /** Every reachable state from mounting satisfies the invariant: `started` means recording. */
  lemma {:induction false} ReachableStarted(displayApi: bool, screen: Acquisition.Answer, camera: Acquisition.Answer, events: seq<UiEvent>)
    ensures var app := Run(MountAsWritten(displayApi, screen, camera), events).0;
            && (app.started <==> Recording(app))
            && (app.started ==> app.mixerReady && app.permissionAllowed)
            && ChunkBuffer.AllNonEmpty(app.buffer)
  {
    RunPreservesInv(MountAsWritten(displayApi, screen, camera), events);
  }

  /** A second Stop after a completed one changes nothing and downloads nothing. */
  lemma StopIdempotent(app: App, final1: ChunkBuffer.DataEvent, ts1: string, final2: ChunkBuffer.DataEvent, ts2: string)
    requires Inv(app)
    ensures var (once, _) := Step(app, ClickStop(final1, ts1));
            Step(once, ClickStop(final2, ts2)) == (once, None)
  {
  }

  lemma {:induction false} RunAppend(app: App, a: seq<UiEvent>, b: seq<UiEvent>)
    ensures Run(app, a + b) == (Run(Run(app, a).0, b).0, Run(app, a).1 + Run(Run(app, a).0, b).1)
    decreases |b|
  {
    if |b| > 0 {
      var b' := b[..|b| - 1];
      assert (a + b)[..|a + b| - 1] == a + b';
      assert (a + b)[|a + b| - 1] == b[|b| - 1];
      RunAppend(app, a, b');
      var mid := Run(app, a);
      var before := Run(mid.0, b');
      assert mid.1 + before.1 + Downloads(Step(before.0, b[|b| - 1]).1)
          == mid.1 + (before.1 + Downloads(Step(before.0, b[|b| - 1]).1));
    } else {
      assert a + b == a;
      assert Run(app, a).1 + [] == Run(app, a).1;
    }
  }

  /** Recorder events carrying the given data, in order. */
  function DataEvents(evs: seq<ChunkBuffer.DataEvent>): (es: seq<UiEvent>)
    ensures |es| == |evs|
    ensures forall i :: 0 <= i < |evs| ==> es[i] == Data(evs[i])
  {
    if |evs| == 0 then [] else DataEvents(evs[..|evs| - 1]) + [Data(evs[|evs| - 1])]
  }

  /** While recording, data events only fill the buffer, exactly as a fresh replay would. */
  lemma {:induction false} RecordingPhase(app: App, evs: seq<ChunkBuffer.DataEvent>)
    requires Recording(app) && app.buffer == []
    ensures Run(app, DataEvents(evs)) == (app.(buffer := ChunkBuffer.Replay(evs)), [])
  {
    if |evs| > 0 {
      var init := evs[..|evs| - 1];
      var es := DataEvents(evs);
      assert es[..|es| - 1] == DataEvents(init);
      assert es[|es| - 1] == Data(evs[|evs| - 1]);
      RecordingPhase(app, init);
      var mid := app.(buffer := ChunkBuffer.Replay(init));
      assert Recording(mid);
      assert Step(mid, Data(evs[|evs| - 1])) == (mid.(buffer := ChunkBuffer.Replay(evs)), None);
      assert [] + Downloads(None) == [];
    }
  }

  /**
   * With the flag as written, a denied camera still offers Start, but no click ever
   * starts a recording: the missing mixer makes every attempt fail silently.
   */
  lemma {:induction false} StartWithoutMixerNeverStarts(events: seq<UiEvent>)
    ensures var app := MountAsWritten(true, Acquisition.Granted, Acquisition.Denied);
            app.permissionAllowed && !app.mixerReady
    ensures var app := Run(MountAsWritten(true, Acquisition.Granted, Acquisition.Denied), events).0;
            !app.started && app.recorder.None? && app.permissionAllowed && !app.mixerReady
  {
    if |events| > 0 {
      StartWithoutMixerNeverStarts(events[..|events| - 1]);
    }
  }

  /** Clicking Start with a working recorder begins recording on an empty buffer. */
  lemma StartPhase(app: App, isTypeSupported: string -> bool)
    requires Inv(app) && app.permissionAllowed && app.mixerReady && !app.started
    ensures Run(app, [ClickStart(isTypeSupported, Records)])
            == (app.(buffer := [], recorder := Some(Recorder(MimeSelect.ChooseMimeType(isTypeSupported), true)), started := true), [])
  {
    var start := [ClickStart(isTypeSupported, Records)];
    assert start[..0] == [];
    var step := Step(app, start[0]);
    assert [] + Downloads(step.1) == [];
  }

  /** Clicking Stop while recording downloads exactly one file. */
  lemma StopPhase(app: App, final: ChunkBuffer.DataEvent, ts: string)
    requires app.permissionAllowed && app.started && Recording(app)
    ensures var (last, out) := Run(app, [ClickStop(final, ts)]);
            && |out| == 1
            && out[0].bytes == ChunkBuffer.Concat(app.buffer) + ChunkBuffer.EventBytes(final)
            && ChunkBuffer.TimestampOf(out[0].name) == Some(ts)
            && !last.started
            && last.recorder == Some(app.recorder.value.(active := false))
  {
  }

  /**
   * A whole recording: Start with a working recorder, any data events, then Stop.
   * Exactly one file is downloaded; it holds all the delivered bytes in order, is
   * named after the stop timestamp, and the app is back to not started.
   */
  lemma RecordingRoundTrip(app: App, isTypeSupported: string -> bool,
                           evs: seq<ChunkBuffer.DataEvent>, final: ChunkBuffer.DataEvent, ts: string)
    requires Inv(app) && app.permissionAllowed && app.mixerReady && !app.started
    ensures var (last, out) := Run(app, [ClickStart(isTypeSupported, Records)] + DataEvents(evs) + [ClickStop(final, ts)]);
            && |out| == 1
            && out[0].bytes == ChunkBuffer.AllBytes(evs + [final])
            && ChunkBuffer.TimestampOf(out[0].name) == Some(ts)
            && !last.started
            && last.recorder == Some(Recorder(MimeSelect.ChooseMimeType(isTypeSupported), false))
  {
    var start := [ClickStart(isTypeSupported, Records)];
    var stop := [ClickStop(final, ts)];
    var s1 := Run(app, start).0;
    StartPhase(app, isTypeSupported);
    RecordingPhase(s1, evs);
    RunAppend(app, start, DataEvents(evs));
    var s2 := s1.(buffer := ChunkBuffer.Replay(evs));
    assert Run(app, start + DataEvents(evs)) == (s2, []);
    RunAppend(app, start + DataEvents(evs), stop);
    StopPhase(s2, final, ts);
    ChunkBuffer.ReplayKeepsAllBytes(evs);
    assert (evs + [final])[..|evs|] == evs;
    assert ChunkBuffer.AllBytes(evs + [final]) == ChunkBuffer.AllBytes(evs) + ChunkBuffer.EventBytes(final);
  }
}

=== FILE: stop_listener.dfy ===
/**
 * `addStreamStopListener`: four handlers (stream ended, stream inactive, and ended /
 * inactive on each track the stream had when the listener was added) all call the
 * one captured `callback` binding and then overwrite it with a no-op, so the
 * cleanup passed in runs at most once however many of those events fire.
 */
module StopListener {

  datatype EventKind = Ended | Inactive

  /** The stream itself, or one of its tracks by identity. */
  datatype Target = Stream | Track(id: nat)

  datatype StopEvent = StopEvent(target: Target, kind: EventKind)

  /** What the shared `callback` variable currently refers to. */
  datatype Binding = Cleanup | NoOp

  /**
   * The listener's state: the tracks handlers were attached to, the current binding
   * of `callback`, and how many times the cleanup has run.
   */
  datatype Listener = Listener(tracks: seq<nat>, callback: Binding, cleanupRuns: nat)

  /** Attaching the handlers: nothing has run yet. */
  function AddStreamStopListener(tracks: seq<nat>): (l: Listener)
    ensures l.tracks == tracks && l.callback == Cleanup && l.cleanupRuns == 0
  {
    Listener(tracks, Cleanup, 0)
  }

  /** A handler was attached for this event. */
  predicate Handled(tracks: seq<nat>, ev: StopEvent)
  {
    ev.target.Stream? || ev.target.id in tracks
  }

  /** One event: a handler, if any, calls the current binding and then neutralises it. */
  function Fire(l: Listener, ev: StopEvent): (l': Listener)
    ensures l'.tracks == l.tracks
    ensures !Handled(l.tracks, ev) ==> l' == l
    ensures Handled(l.tracks, ev) ==> l'.callback == NoOp
    ensures l'.cleanupRuns == l.cleanupRuns + (if Handled(l.tracks, ev) && l.callback == Cleanup then 1 else 0)
  {
    if !Handled(l.tracks, ev) then l
    else
      var runs := if l.callback == Cleanup then l.cleanupRuns + 1 else l.cleanupRuns;
      Listener(l.tracks, NoOp, runs)
  }

  function Run(l: Listener, events: seq<StopEvent>): Listener
  {
    if |events| == 0 then l else Fire(Run(l, events[..|events| - 1]), events[|events| - 1])
  }

  /** Some event of the sequence reached a handler. */
  ghost predicate AnyHandled(tracks: seq<nat>, events: seq<StopEvent>)
  {
    exists i :: 0 <= i < |events| && Handled(tracks, events[i])
  }

  /**
   * For any sequence of events, the cleanup has run once if some event reached a
   * handler and never otherwise; the binding is neutralised exactly when it ran.
   */
  lemma {:induction false} RunsAtMostOnce(tracks: seq<nat>, events: seq<StopEvent>)
    ensures var l := Run(AddStreamStopListener(tracks), events);
            && l.tracks == tracks
            && l.cleanupRuns <= 1
            && (l.cleanupRuns == 1 <==> AnyHandled(tracks, events))
            && (l.callback == NoOp <==> l.cleanupRuns == 1)
  {
    if |events| > 0 {
      var init := events[..|events| - 1];
      RunsAtMostOnce(tracks, init);
      if AnyHandled(tracks, init) {
        var i :| 0 <= i < |init| && Handled(tracks, init[i]);
        assert events[i] == init[i];
      }
      if AnyHandled(tracks, events) && !Handled(tracks, events[|events| - 1]) {
        var i :| 0 <= i < |events| && Handled(tracks, events[i]);
        assert init[i] == events[i];
      }
    }
  }

  /** Once the cleanup has run, further events change nothing. */
  lemma {:induction false} NeutralisedStaysInert(l: Listener, events: seq<StopEvent>)
    requires l.callback == NoOp
    ensures Run(l, events).cleanupRuns == l.cleanupRuns
    ensures Run(l, events).callback == NoOp
  {
    if |events| > 0 {
      NeutralisedStaysInert(l, events[..|events| - 1]);
    }
  }
}

=== FILE: wrappers.dfy ===
/** An optional value shared by the other modules. */
module Wrappers {

  /** A value that may be absent, as JavaScript's `undefined`/`null` is used for "no value". */
  datatype Option<+T> = None | Some(value: T) {

    /** The value, or `default` when there is none. */
    function GetOr(default: T): T {
      match this
      case Some(v) => v
      case None => default
    }
  }
}
